=== FILE: README.md ===
# Hashid fields: a Dafny model of the decision layer around the Hashids codec

`django-hashid-field` stores plain integer ids in the database and shows them
to the outside world as Hashids strings. The obfuscating codec itself lives
in the external `hashids` package; this repository's own logic is the layer
of decisions wrapped around it, and that layer is what this project models
and proves things about, for both generations of the package:

- `hashid_field` (current): the immutable `Hashid` value type
  (`identifier.dfy`), query lookups (`lookups.dfy`), the field mixin
  (`field.dfy`) and the attribute descriptor (`descriptor.dfy`);
- `hashids_field` (older): a mutable `Hashid` whose `set` reassigns `id` and
  `hashid` in place (`legacy_identifier.dfy`), its field mixin
  (`legacy_field.dfy`) and its descriptor, which updates the Hashid object an
  instance already holds (`legacy_descriptor.dfy`).

`base.dfy` holds what both share: the codec, kept abstract as a pair of total
functions `encode: (Config, nat) -> string` and
`decode: (Config, string) -> seq<nat>` passed as a parameter; the
"exactly one decoded integer" rule; Python's `int()` on strings (an optional
sign and ASCII digits); the system-check messages; and a model instance's
`__dict__` as a class holding a map.

Nothing about the codec is assumed globally. Where a property needs the
codec's round trip, it takes `RoundTripsAt(codec, cfg, n)`, that is
`decode(cfg, encode(cfg, n)) == [n]`, as a `requires` hypothesis.

How the source's shapes are modelled:

- Python values handed to constructors, fields and lookups form a `Value`
  datatype: an integer, a string, `None`, a `Hashid`, or `Other` (any object
  `int()` rejects).
- Exceptions become `Result` errors named after the message they carry.
- A current-generation `Hashid` assigns its fields once and caches its
  string, so it is a datatype whose `hashid` is the encoding of its `id`
  (`Identifier.WellFormed`).
- A legacy `Hashid` is a class. Its `Set` method is proved against the pure
  `SetOutcome`, and its `Valid()` invariant says the string is either the
  canonical encoding of the id or a string kept verbatim that decodes to it.
- The settings (salt, `SECRET_KEY`, the integer-lookup flag) are
  parameters, not globals.

Some behaviours of the code that a reader might not expect, all modelled as
written:

- The alphabet check counts raw characters, not distinct ones
  (`Field.CheckAlphabetMinLength`).
- Equality of current-generation Hashids compares `id` and string but not
  the settings.
- A decode that yields 0 counts as a failure, because `if value:` treats 0
  as false (`Identifier.NewZeroDecodeFallsThrough`).
- The `Hashid` class has no prefix. Only the current descriptor takes,
  stores and passes on a `prefix` argument (hashid_field/descriptor.py:7,
  12 and 29), which the constructor does not accept.

## Model

| member | source | states |
|---|---|---|
| `Base.DecodeOne` | hashid_field/hashid.py:76-81 | a value exactly when the codec yields one integer, and then that integer; empty and multi-value decodes give nothing (identical in hashids_field/hashid.py:16-21) |
| `Base.DecodeOneOfEncoding` | hashid_field/hashid.py:76-81 | under the codec's round trip, the canonical string of n decodes to n |
| `Base.ParseDecimal` | hashid_field/hashid.py:43-46 | `int(s)` succeeds exactly on a sign-optional run of digits; an unsigned run gives its digit value, `+` gives the value of the rest and `-` its negation |
| `Base.ParseDecimalRoundTrip` | hashid_field/hashid.py:43-48 | the parse inverts decimal rendering: `int(str(n)) == n`, `int("+" + str(n)) == n` and `int("-" + str(n)) == -n` |
| `Base.ParseDecimalLeadingZero` | hashid_field/hashid.py:43-46 | a leading zero does not change the value: `int("0" + str(n)) == n` |
| `Identifier.DecodeValue` | hashid_field/hashid.py:37-39 | a value exactly when the input is a string the codec decodes to one integer, and then that integer |
| `Identifier.New` | hashid_field/hashid.py:27-51 | a built Hashid carries the given settings and its string is the codec's encoding of its id; the id is the truthy single decode when there is one, `int(v)` otherwise; construction fails exactly when the input is not a non-negative int, has no truthy single decode, and `int()` rejects it or gives a negative |
| `Identifier.NewFromInteger` | hashid_field/hashid.py:32-35 | a non-negative integer becomes the id unchanged, whatever the codec's decode does |
| `Identifier.NewFromHashidString` | hashid_field/hashid.py:37-40 | a string with a single truthy decode gets that value as id |
| `Identifier.NewFromDecimalString` | hashid_field/hashid.py:41-51 | a decimal string without a truthy single decode becomes the Hashid of its value |
| `Identifier.NewFromHashid` | hashid_field/hashid.py:43-51 | a Hashid argument is rebuilt from its id under the constructor's settings, and one with those settings comes back equal to itself |
| `Identifier.NewZeroDecodeFallsThrough` | hashid_field/hashid.py:38-44 | a decode of 0 is falsy: the string is then refused unless it is a decimal literal, whose value becomes the id |
| `Identifier.NewRejects` | hashid_field/hashid.py:41-48 | with no fast path and no truthy decode, an unparsable input raises "valid Hashid value" and a negative parse raises "positive integer" |
| `Identifier.NegativeRejected` | tests/test_hashid.py:21-23 | a negative integer is always refused, and so is its decimal string unless the codec decodes it |
| `Identifier.AsString` | hashid_field/hashid.py:86-87 | a Hashid equals its own `str()` |
| `Identifier.AsInt` | hashid_field/hashid.py:89-90 | a Hashid equals its own `int()`, which is also what `int()` makes of it elsewhere in the model |
| `Identifier.Length` | hashid_field/hashid.py:114-115 | `len(h)` is the length of `str(h)` |
| `Identifier.HashKey` | hashid_field/hashid.py:117-118 | `hash(h)` is taken over `str(h)`, so a Hashid and its string share a bucket |
| `Identifier.CoercionsOfNew` | hashid_field/hashid.py:86-115 | for a Hashid built from n: `int(h) == n`, `str(h) == encode(n)`, `len(h) == len(encode(n))` |
| `Identifier.Eq` | hashid_field/hashid.py:98-105 | `None` and other objects are never equal; a string compares with the Hashid's string, an integer with its id, a Hashid with both |
| `Identifier.Lt` | hashid_field/hashid.py:107-112 | defined exactly for a Hashid or an integer operand (otherwise `TypeError`), and then compares the id with the operand's `int()` |
| `Identifier.EqCoercions` | hashid_field/hashid.py:98-105 | a Hashid equals its own string and its own integer |
| `Identifier.EqEquivalence` | hashid_field/hashid.py:98-118 | Hashid equality is reflexive, symmetric and transitive, and equal Hashids have equal hash keys |
| `Identifier.EqSameConfig` | hashid_field/hashid.py:98-100 | two well-formed Hashids with the same settings are equal exactly when their ids are |
| `Identifier.LtOrdersById` | hashid_field/hashid.py:107-112 | `<` compares ids only: irreflexive, transitive, and mutual non-precedence means equal ids |
| `Identifier.SortedByLtIsSortedById` | tests/test_hashid.py:44-49 | a list with no pair out of order under `<` is sorted by id, and conversely |
| `Identifier.HashidStringRoundTrip` | tests/test_hashid.py:14-19 | for n > 0 under the codec round trip, `Hashid(Hashid(n).hashid)` is `Hashid(n)` |
| `Identifier.Reduce` | hashid_field/hashid.py:120-121 | the tuple holds the id and exactly the Hashid's settings |
| `Identifier.ReduceRebuilds` | hashid_field/hashid.py:120-121 | rebuilding from the `__reduce__` tuple yields the same Hashid |
| `Lookups.GetIdForHashidField` | hashid_field/lookups.py:5-18 | success returns the id of `encode_id(value)`; a constructor error is `TypeError` 'invalid'; with integer lookups off an accepted value equals the canonical string of the id, and any other value is 'invalid_hashid'; a constructed value is accepted whenever integer lookups are on or it matches its canonical string |
| `Lookups.IntegerLookupAllowed` | hashid_field/lookups.py:10-18 | with integer lookups on, a non-negative integer is its own id |
| `Lookups.IntegerLookupRefused` | hashid_field/lookups.py:10-17 | with integer lookups off, every integer is refused |
| `Lookups.CanonicalLookupAccepted` | hashid_field/lookups.py:10-18 | with integer lookups off, the canonical string of a positive id and a Hashid with the field's settings are accepted as their ids |
| `Lookups.ValidIds` | hashid_field/lookups.py:30-38 | every id kept is the lookup id of some input value |
| `Lookups.ValidIdsLength` | hashid_field/lookups.py:29-38 | the iterable result is never longer than the input |
| `Lookups.ValidIdsAppend` | hashid_field/lookups.py:30-38 | filtering distributes over concatenation, so ids keep input order |
| `Lookups.ValidIdsEmpty` | hashid_field/lookups.py:39-40 | no id survives exactly when every value is invalid |
| `Lookups.ValidIdsAllValid` | hashid_field/lookups.py:30-38 | when every value is valid, the k-th id is the k-th value's id |
| `Lookups.GetDbPrepLookup` | hashid_field/lookups.py:22-47 | iterable mode: the ids of the valid values, or `EmptyResultSet` when none survives; single mode: `[id]`, or `EmptyResultSet` for an invalid value |
| `Field.Init` | hashid_field/field.py:25-35 | the deprecated `allow_int` keyword, when present, becomes `allow_int_lookup`, is removed from the parent's keywords (the others pass unchanged) and triggers a warning |
| `Field.CheckAlphabetMinLength` | hashid_field/field.py:49-59 | error `HashidField.E001` exactly when the alphabet has fewer than 16 characters |
| `Field.CheckSaltIsSet` | hashid_field/field.py:61-71 | warning `HashidField.W001` exactly when the salt is `None` or empty |
| `Field.Check` | hashid_field/field.py:43-47 | the field reports an error exactly for a short alphabet and a warning exactly for a missing salt, and nothing else: at most the E001 error and the W001 warning, in that order |
| `Field.GetLookup` | hashid_field/field.py:81-88 | exact-like names give `HashidLookup`, `in` gives `HashidIterableLookup`, `isnull` the parent's lookup, anything else `None` |
| `Field.EncodeId` | hashid_field/field.py:73-74 | the Hashid built carries the field's settings and is well formed |
| `Field.FromDbValue` | hashid_field/field.py:76-79 | `None` stays `None`; any other value is wrapped by `encode_id`, whose error propagates |
| `Field.ToPython` | hashid_field/field.py:90-103 | a Hashid is returned unchanged, `None` stays `None`, anything else goes through `encode_id` with its error turned into `ValidationError` |
| `Field.ToPythonIdempotent` | hashid_field/field.py:90-94 | converting `to_python`'s result again returns it unchanged |
| `Field.GetPrepValue` | hashid_field/field.py:105-114 | `None` and `''` (including a Hashid equal to `''`) give `None`, a Hashid its id, anything else the id of `encode_id`, or `ValueError` |
| `Field.PrepAgreesWithToPython` | hashid_field/field.py:90-114 | `get_prep_value` of a value and of its `to_python` Hashid are both that Hashid's id |
| `Field.DatabaseRoundTrip` | hashid_field/field.py:76-114 | a database id read through `from_db_value` prepares back to the same id |
| `Field.HashidStringPreparesToId` | hashid_field/field.py:105-114 | the canonical string of a positive id prepares to that id, under the codec round trip |
| `Descriptor.Stored` | hashid_field/descriptor.py:24-31 | a Hashid or `None` is stored as is; another value becomes exactly the Hashid the constructor builds when construction succeeds, and stays raw otherwise |
| `Descriptor.StoredCases` | hashid_field/descriptor.py:27-31 | an integer is stored as its Hashid; a negative integer or an undecodable, unparsable string is stored raw |
| `Descriptor.HashidDescriptor.constructor` | hashid_field/descriptor.py:7-16 | the descriptor keeps its slot name, settings and codec |
| `Descriptor.HashidDescriptor.Get` | hashid_field/descriptor.py:18-22 | reading on the class or before any assignment gives `None`, otherwise the slot's value |
| `Descriptor.HashidDescriptor.Set` | hashid_field/descriptor.py:24-31 | only the descriptor's slot changes, to `Stored(value)`, and a following read returns it |
| `Descriptor.AssignAndRead` | hashid_field/descriptor.py:18-31 | a fresh instance reads `None`, an assigned integer reads back as its Hashid, a refused value reads back raw |
| `LegacyIdentifier.DecodeValue` | hashids_field/hashid.py:16-21 | a value exactly when the input is a string the codec decodes to one integer, and then that integer |
| `LegacyIdentifier.SetOutcome` | hashids_field/hashid.py:23-37 | `set` keeps a string with a truthy single decode verbatim, with that decode as id; otherwise the id is `int(v)` and the string its encoding; it fails exactly without a truthy decode and with a rejected or negative `int()`, and the error names which |
| `LegacyIdentifier.SetKeepsStringVerbatim` | hashids_field/hashid.py:24-28 | a string with a truthy single decode is kept as given, so a non-canonical string yields a different pair than the integer |
| `LegacyIdentifier.SetFromInteger` | hashids_field/hashid.py:29-37 | a non-negative integer is the id and its encoding the string, whatever the codec |
| `LegacyIdentifier.SetFromDecimalString` | hashids_field/hashid.py:29-37 | a decimal string without a truthy single decode gets its value as id and the encoding as string |
| `LegacyIdentifier.SetRejects` | hashids_field/hashid.py:29-34 | negative integers, `None` and other objects are refused with the matching message |
| `LegacyIdentifier.Hashid.constructor` | hashids_field/hashid.py:8-11 | a new object holds the codec and settings it is built with |
| `LegacyIdentifier.Hashid.Set` | hashids_field/hashid.py:23-37 | on success both fields take `SetOutcome`'s pair, the new string is returned and `Valid()` holds; on failure neither field changes |
| `LegacyIdentifier.Hashid.AsString` | hashids_field/hashid.py:42-43 | the string of a valid Hashid is the canonical encoding of its id or decodes to it |
| `LegacyIdentifier.Hashid.Length` | hashids_field/hashid.py:57-58 | `len(h)` is the length of `str(h)` |
| `LegacyIdentifier.Hashid.HashKey` | hashids_field/hashid.py:60-61 | `hash(h)` is the id |
| `LegacyIdentifier.Hashid.Eq` | hashids_field/hashid.py:45-48 | two Hashid objects, distinct or not, are equal exactly when they have the same hash (the id) and the same string |
| `LegacyIdentifier.Hashid.Lt` | hashids_field/hashid.py:50-55 | defined exactly for a Hashid or an integer operand, comparing ids |
| `LegacyIdentifier.EqAndOrderAgree` | hashids_field/hashid.py:45-61 | equal Hashids have equal hashes (the id) and neither is below the other; `<` compares ids |
| `LegacyIdentifier.Create` | hashids_field/hashid.py:8-11 | construction succeeds exactly when `set` does, giving a fresh valid object with `set`'s pair |
| `LegacyField.CheckAlphabetMinLength` | hashids_field/field.py:33-43 | error `HashidsField.E001` exactly when the alphabet has fewer than 16 characters |
| `LegacyField.EncodeId` | hashids_field/field.py:45-53 | a fresh valid Hashid with the field's settings when `set` accepts the value, `ValidationError` otherwise |
| `LegacyField.FromDbValue` | hashids_field/field.py:55-58 | `None` passes through; any other value is wrapped in a fresh valid Hashid with the field's codec and settings and `set`'s pair, or refused |
| `LegacyField.ToPython` | hashids_field/field.py:60-65 | `None` and a Hashid unchanged; anything else a fresh valid Hashid with the field's codec, settings and `set`'s pair, or `ValidationError` |
| `LegacyField.GetPrepValue` | hashids_field/field.py:67-72 | `None` to `None`, a Hashid to its id, anything else to the id `set` gives it, or `ValidationError` |
| `LegacyField.PrepareStringAndInteger` | hashids_field/field.py:67-72 | a positive id's canonical string and the integer itself prepare to the same id |
| `LegacyField.PreSave` | hashids_field/field.py:74-78 | the attribute is replaced by its `to_python` conversion, which is returned; a failing conversion writes nothing |
| `LegacyDescriptor.Truthy` | hashids_field/descriptor.py:24-25 | `None` is falsy, an integer is truthy exactly when non-zero, a Hashid or a string exactly when its string is not empty, any other object always |
| `LegacyDescriptor.HashidDescriptor.constructor` | hashids_field/descriptor.py:7-11 | the descriptor keeps its slot name, settings and codec |
| `LegacyDescriptor.HashidDescriptor.Get` | hashids_field/descriptor.py:13-17 | before any assignment the attribute reads as `None`, otherwise the slot's value |
| `LegacyDescriptor.HashidDescriptor.Set` | hashids_field/descriptor.py:19-30 | a Hashid or `None` is stored as is; with a truthy Hashid held, that object is updated in place, or, when refused, keeps its fields while the slot takes the raw value; otherwise a fresh Hashid with the descriptor's settings, or the raw value |
| `LegacyDescriptor.AliasSeesUpdate` | hashids_field/descriptor.py:24-26 | a reference to the held Hashid sees the id of a later valid assignment |
| `LegacyDescriptor.RefusedKeepsOldHashid` | hashids_field/descriptor.py:29-30 | a refused assignment stores the raw value and leaves the previously held Hashid as it was |

## Left out

- The Hashids codec (alphabet, separator and guard derivation, salted shuffle, padding) lives in the external `hashids` package. It is an arbitrary pair of functions here. Fixture strings, the minimum-length test and the alphabet-containment test depend on it and can enter only as hypotheses.
- Django ORM and form plumbing is not modelled:
  - `contribute_to_class`, `deconstruct`, `formfield` and the admin widget swap;
  - the concrete `HashidField`, `HashidAutoField` and `HashidForeignKey` classes;
  - the parent class's own checks and lookups;
  - the relational `output_field.field` resolution in `get_db_prep_lookup`.
- `hashid_field/rest.py`, `hashid_field/validators.py`, `hashid_field/conf.py` (settings are parameters instead), the sandbox project and the benchmark scripts are not part of this model.
- Python 2 support (`long`, `six`, `__long__`), `__repr__` and the `lazy_property` cache are left out. The cache is transparent, so the string is modelled as a function of the id.
- The model assumes Python 3 semantics with the integer test read as "an integer, at least 0". Two consequences follow from that reading. Under Python 3 itself, the unguarded `isinstance(id, long)` at hashid_field/hashid.py:33 raises `NameError` for every input that is not an `int`, so this reading is what the code evidently intends. Under Python 2, the `!=` at hashid_field/lookups.py:16 falls back to identity for a Hashid value, which would then always be refused; the model (`Lookups.CanonicalLookupAccepted`) uses the Python 3 `!=` derived from `__eq__`.
- Python `int()` leniency is not modelled: surrounding whitespace, underscores, truncation of floats, and booleans counting as integers. `Other` stands for a value `int()` rejects.
- Python `hash()` of a string is represented by the string itself (`HashKey`).
- The comparison operators that `total_ordering` derives (`<=`, `>`, `>=`) are not modelled separately from `<` and `==`.
- An `in` lookup's iterable, which may be a set, is modelled as a sequence in iteration order.
- Keyword-argument values in `Field.Init` are booleans, and the deprecation warning is a returned flag.
- Behaviour that newer releases have and only the tests assert is not implemented by this code and is not modelled: prefixes, `gt`/`lt` pass-through lookups, and `HASHID_FIELD_LOOKUP_EXCEPTION`.
- Lookups.GetIdForHashidField: the source reads `field.allow_int`, while the field sets `allow_int_lookup`. The flag is a plain boolean parameter.
- Descriptor.Stored (and with it `Descriptor.StoredCases`, `Descriptor.AssignAndRead` and `Descriptor.HashidDescriptor.Set`): the source passes `hashids=` and `prefix=` to a `Hashid` constructor that accepts neither (hashid_field/hashid.py:27). As written, every assignment of a value that is neither a Hashid nor `None` therefore raises a `TypeError` that `except ValueError` (hashid_field/descriptor.py:30) does not catch, so neither the Hashid branch nor the raw fallback is reachable. The model instead builds the Hashid from the descriptor's own settings, as the surrounding code evidently intends. The optional pre-built `hashids` object and the prefix are not modelled.
- LegacyIdentifier.Hashid.Eq: takes only another Hashid. In the source, `==` against a string or an integer returns `NotImplemented` (hashids_field/hashid.py:48), which Python turns into `False`; that case is not modelled.
- LegacyDescriptor.Truthy: `Other` is always truthy. Python's empty containers such as `[]` and `{}` are falsy, and for a slot holding one the source would build a new Hashid (hashids_field/descriptor.py:25, 28) where the model's requires refuses the assignment.
- LegacyDescriptor.HashidDescriptor.Set: requires that the slot holds no truthy value other than a Hashid. The source would call `.set` on such a value and raise `AttributeError`.
- LegacyDescriptor.HashidDescriptor.Get: takes an instance. Reading on the class, where the source raises `AttributeError`, is not modelled.
- LegacyIdentifier.Hashid.constructor: the fields hold placeholders until `Set` runs. The source first stores the raw input as `id`, but an object whose `set` raises is never handed out.

=== FILE: base.dfy ===
/** Vocabulary shared by both generations of the field package: option and
    result wrappers, the settings a Hashids codec is built from, the codec
    itself (kept abstract, since it lives in the external `hashids` package),
    the "exactly one decoded integer" rule, Python's `int()` on strings, the
    system-check messages, and a model instance's attribute dictionary. */
module Base {

  datatype Option<+T> = None | Some(value: T)

  datatype Result<+T, +E> = Ok(value: T) | Err(error: E)

  /** The three settings a `Hashids` codec object is built from. A field's
      salt may be Python `None`, so the salt is optional. */
  datatype Config = Config(salt: Option<string>, minLength: nat, alphabet: string)

  /** The external Hashids codec: any pair of total functions. Nothing about
      the codec is assumed globally; properties that need its round trip
      take `RoundTripsAt` as a hypothesis. */
  datatype Codec = Codec(encode: (Config, nat) -> string, decode: (Config, string) -> seq<nat>)

  /** The codec's own round trip at one integer. */
  predicate RoundTripsAt(codec: Codec, cfg: Config, n: nat)
  {
    codec.decode(cfg, codec.encode(cfg, n)) == [n]
  }

  /** `Hashid.decode`: a value only when the codec yields exactly one integer;
      an empty or multi-valued decode gives nothing. */
  function DecodeOne(codec: Codec, cfg: Config, s: string): (r: Option<nat>)
    ensures r.Some? <==> |codec.decode(cfg, s)| == 1
    ensures r.Some? ==> codec.decode(cfg, s) == [r.value]
  {
    var ids := codec.decode(cfg, s);
    if |ids| == 1 then Some(ids[0]) else None
  }

  /** Under the codec's round trip, the canonical string of `n` decodes to `n`. */
  lemma DecodeOneOfEncoding(codec: Codec, cfg: Config, n: nat)
    requires RoundTripsAt(codec, cfg, n)
    ensures DecodeOne(codec, cfg, codec.encode(cfg, n)) == Some(n)
  {
  }

  // ---------------------------------------------------------------------
  // Python's int() on a string: an optional sign followed by ASCII digits.

  predicate IsDigit(c: char)
  {
    '0' <= c <= '9'
  }

  predicate AllDigits(s: string)
  {
    forall i :: 0 <= i < |s| ==> IsDigit(s[i])
  }

  /** The value of a run of decimal digits, most significant first. */
  function DigitsValue(s: string): nat
    requires AllDigits(s)
    decreases |s|
  {
    if s == [] then 0
    else 10 * DigitsValue(s[..|s| - 1]) + (s[|s| - 1] as int - '0' as int)
  }

  predicate IsSign(c: char)
  {
    c == '+' || c == '-'
  }

  /** The strings `int()` accepts in this model. */
  predicate IsDecimalLiteral(s: string)
  {
    (|s| > 0 && AllDigits(s)) || (|s| > 1 && IsSign(s[0]) && AllDigits(s[1..]))
  }

  /** `int(s)` for a string `s`; `None` stands for the `ValueError` it raises. */
  function ParseDecimal(s: string): (r: Option<int>)
    ensures r.Some? <==> IsDecimalLiteral(s)
    ensures r.Some? && r.value < 0 ==> s[0] == '-'
    ensures r.Some? && |s| > 0 && AllDigits(s) ==> r.value == DigitsValue(s)
    // A sign applies to the value of the digits that follow it.
    ensures r.Some? && s[0] == '+' ==> r == ParseDecimal(s[1..])
    ensures r.Some? && s[0] == '-' ==> ParseDecimal(s[1..]).Some? && r.value == -ParseDecimal(s[1..]).value
    decreases |s|
  {
    if |s| > 0 && AllDigits(s) then Some(DigitsValue(s))
    else if |s| > 1 && IsSign(s[0]) && AllDigits(s[1..]) then
      if s[0] == '-' then Some(-(DigitsValue(s[1..]) as int)) else Some(DigitsValue(s[1..]))
    else None
  }

  /** `str(n)` for a non-negative integer. */
  function DecimalString(n: nat): (s: string)
    ensures |s| > 0
    decreases n
  {
    var d := ['0' + (n % 10) as char];
    if n < 10 then d else DecimalString(n / 10) + d
  }

  lemma {:induction false} DecimalStringDigits(n: nat)
    ensures AllDigits(DecimalString(n))
    ensures DigitsValue(DecimalString(n)) == n
    decreases n
  {
    var s := DecimalString(n);
    if n >= 10 {
      DecimalStringDigits(n / 10);
      assert s[..|s| - 1] == DecimalString(n / 10);
    }
  }

  /** `int(str(n)) == n`, `int("+" + str(n)) == n` and
      `int("-" + str(n)) == -n`: the parse inverts the decimal rendering of
      integers of either sign. */
  lemma {:induction false} ParseDecimalRoundTrip(n: nat)
    ensures ParseDecimal(DecimalString(n)) == Some(n)
    ensures ParseDecimal("+" + DecimalString(n)) == Some(n)
    ensures ParseDecimal("-" + DecimalString(n)) == Some(-(n as int))
  {
    DecimalStringDigits(n);
    var minus := "-" + DecimalString(n);
    assert minus[1..] == DecimalString(n);
    assert !AllDigits(minus) by { assert !IsDigit(minus[0]); }
    var plus := "+" + DecimalString(n);
    assert plus[1..] == DecimalString(n);
    assert !AllDigits(plus) by { assert !IsDigit(plus[0]); }
  }

  /** Leading zeros do not change the value `int()` gives a digit run. */
  lemma {:induction false} LeadingZeroIgnored(s: string)
    requires AllDigits(s)
    ensures AllDigits("0" + s)
    ensures DigitsValue("0" + s) == DigitsValue(s)
    decreases |s|
  {
    var z := "0" + s;
    if s != [] {
      var init := s[..|s| - 1];
      LeadingZeroIgnored(init);
      assert z[..|z| - 1] == "0" + init;
      assert z[|z| - 1] == s[|s| - 1];
    }
  }

  /** `int("0" + str(n)) == n`. */
  lemma ParseDecimalLeadingZero(n: nat)
    ensures ParseDecimal("0" + DecimalString(n)) == Some(n)
  {
    DecimalStringDigits(n);
    LeadingZeroIgnored(DecimalString(n));
  }

  // ---------------------------------------------------------------------
  // Django system-check messages.

  datatype CheckMessage =
    | CheckError(id: string, msg: string, hint: string)
    | CheckWarning(id: string, msg: string, hint: string)

  /** The error both field generations report for an alphabet shorter than
      16 characters; `owner` is the field class's check prefix. */
  function AlphabetTooShort(owner: string): CheckMessage
  {
    CheckError(owner + ".E001", "'alphabet' must contain a minimum of 16 characters",
               "Add more characters to custom 'alphabet'")
  }

  // ---------------------------------------------------------------------
  // A model instance's `__dict__`, which the descriptors and `pre_save` use.

  class ModelInstance<V> {
    var dict: map<string, V>

    constructor ()
      ensures dict == map[]
    {
      dict := map[];
    }
  }
}

=== FILE: descriptor.dfy ===
/** `HashidDescriptor` of `hashid_field`: the attribute a Hashid field
    installs on its model class. Reads and writes go to one slot of the
    instance's `__dict__`. */
module Descriptor {
  import opened Base
  import opened Identifier

  /** What an assignment of `value` leaves in the slot: a Hashid or `None` as
      is; otherwise the Hashid built from it, or the raw value when the
      constructor raises `ValueError`. */
  function Stored(codec: Codec, cfg: Config, value: Value): (r: Value)
    ensures value.HashidVal? || value.NoneVal? ==> r == value
    ensures r == value || (r.HashidVal? && WellFormed(codec, r.h) && r.h.cfg == cfg)
    ensures !value.HashidVal? && !value.NoneVal? ==> (r.HashidVal? <==> New(codec, cfg, value).Ok?)
    ensures !value.HashidVal? && !value.NoneVal? && New(codec, cfg, value).Ok? ==>
              r == HashidVal(New(codec, cfg, value).value)
  {
    if value.HashidVal? || value.NoneVal? then value
    else match New(codec, cfg, value)
      case Ok(h) => HashidVal(h)
      case Err(_) => value
  }

  /** Assigning an integer stores the Hashid of that integer; assigning a
      negative integer or an unparsable, undecodable string stores the raw
      value. */
  lemma StoredCases(codec: Codec, cfg: Config, n: nat, s: string)
    requires !IsDecimalLiteral(s) && |codec.decode(cfg, s)| != 1
    ensures Stored(codec, cfg, Int(n)) == HashidVal(Hashid(n, codec.encode(cfg, n), cfg))
    ensures n > 0 ==> Stored(codec, cfg, Int(-(n as int))) == Int(-(n as int))
    ensures Stored(codec, cfg, Str(s)) == Str(s)
  {
  }

  class HashidDescriptor {
    const name: string
    const cfg: Config
    const codec: Codec

    /** `HashidDescriptor(name, salt, min_length, alphabet)`; the codec is the
        one built from those settings. */
    constructor (name: string, cfg: Config, codec: Codec)
      ensures this.name == name && this.cfg == cfg && this.codec == codec
    {
      this.name := name;
      this.cfg := cfg;
      this.codec := codec;
    }

    /** `__get__`: on the class (`instance` is `None`), or before any
        assignment, the attribute reads as `None`. */
    function Get(instance: ModelInstance?<Value>): (v: Value)
      reads instance
      ensures instance == null || name !in instance.dict ==> v == NoneVal
      ensures instance != null && name in instance.dict ==> v == instance.dict[name]
    {
      if instance != null && name in instance.dict then instance.dict[name] else NoneVal
    }

    /** `__set__`: only the descriptor's slot changes, and a following read
        returns what was stored. */
    method Set(instance: ModelInstance<Value>, value: Value)
      modifies instance
      ensures instance.dict == old(instance.dict)[name := Stored(codec, cfg, value)]
      ensures Get(instance) == Stored(codec, cfg, value)
    {
      if value.HashidVal? || value.NoneVal? {
        instance.dict := instance.dict[name := value];
      } else {
        match New(codec, cfg, value)
        case Ok(h) =>
          instance.dict := instance.dict[name := HashidVal(h)];
        case Err(_) =>
          instance.dict := instance.dict[name := value];
      }
    }
  }

  /** A client of the descriptor: a fresh instance reads `None`, an assigned
      integer reads back as its Hashid, and a rejected value reads back raw. */
  method AssignAndRead(codec: Codec, cfg: Config, n: nat, bad: int) returns (before: Value, afterInt: Value, afterBad: Value)
    requires bad < 0
    ensures before == NoneVal
    ensures afterInt.HashidVal? && afterInt.h.id == n && afterInt.h.hashid == codec.encode(cfg, n)
    ensures afterBad == Int(bad)
  {
    var d := new HashidDescriptor("hashid", cfg, codec);
    var t := new ModelInstance<Value>();
    before := d.Get(t);
    d.Set(t, Int(n));
    afterInt := d.Get(t);
    d.Set(t, Int(bad));
    afterBad := d.Get(t);
  }
}

=== FILE: field.dfy ===
/** `HashidFieldMixin` of `hashid_field`: construction (with the renamed
    keyword), the system checks, the lookup table and the conversions
    between Python values, database values and `Hashid`s. */
module Field {
  import opened Base
  import opened Identifier

  /** The settings a field keeps; `allowIntLookup` gates integer lookups. */
  datatype HashidField = HashidField(salt: Option<string>, minLength: nat, alphabet: string, allowIntLookup: bool)

  /** The codec settings `encode_id` builds a `Hashid` with. */
  function ConfigOf(f: HashidField): Config
  {
    Config(f.salt, f.minLength, f.alphabet)
  }

  // ---------------------------------------------------------------------
  // __init__

  /** What `__init__` leaves behind: the field, the keyword arguments passed
      on to the parent class, and whether a `DeprecationWarning` was issued. */
  datatype Initialised = Initialised(field: HashidField, parentKwargs: map<string, bool>, deprecationWarned: bool)

  /** `__init__(salt, min_length, alphabet, allow_int_lookup, **kwargs)`: the
      deprecated `allow_int` keyword, when present, overrides
      `allow_int_lookup` and is removed before the parent sees the keywords. */
  function Init(salt: Option<string>, minLength: nat, alphabet: string, allowIntLookup: bool,
                kwargs: map<string, bool>): (r: Initialised)
    ensures ConfigOf(r.field) == Config(salt, minLength, alphabet)
    ensures "allow_int" !in r.parentKwargs
    ensures forall k :: k in kwargs && k != "allow_int" ==> k in r.parentKwargs && r.parentKwargs[k] == kwargs[k]
    ensures r.parentKwargs.Keys <= kwargs.Keys
    ensures r.deprecationWarned <==> "allow_int" in kwargs
    ensures "allow_int" in kwargs ==> r.field.allowIntLookup == kwargs["allow_int"]
    ensures "allow_int" !in kwargs ==> r.field.allowIntLookup == allowIntLookup && r.parentKwargs == kwargs
  {
    if "allow_int" in kwargs then
      Initialised(HashidField(salt, minLength, alphabet, kwargs["allow_int"]), kwargs - {"allow_int"}, true)
    else
      Initialised(HashidField(salt, minLength, alphabet, allowIntLookup), kwargs, false)
  }

  // ---------------------------------------------------------------------
  // System checks

  /** `_check_alphabet_min_length`: error E001 exactly when the alphabet has
      fewer than 16 characters. */
  function CheckAlphabetMinLength(f: HashidField): (r: seq<CheckMessage>)
    ensures r != [] <==> |f.alphabet| < 16
    ensures r != [] ==> r == [AlphabetTooShort("HashidField")]
  {
    if |f.alphabet| < 16 then [AlphabetTooShort("HashidField")] else []
  }

  /** `_check_salt_is_set`: warning W001 exactly when the salt is `None` or empty. */
  function CheckSaltIsSet(f: HashidField): (r: seq<CheckMessage>)
    ensures r != [] <==> f.salt == None || f.salt == Some("")
    ensures r != [] ==> |r| == 1 && r[0].CheckWarning? && r[0].id == "HashidField.W001"
  {
    if f.salt == None || f.salt == Some("") then
      [CheckWarning("HashidField.W001", "'salt' is not set",
                    "Pass a salt value in your field or set settings.HASHID_FIELD_SALT")]
    else []
  }

  /** `check()`, leaving out the parent class's own checks: the field reports
      an error exactly for a short alphabet and a warning exactly for a
      missing salt. */
  function Check(f: HashidField): (r: seq<CheckMessage>)
    ensures (exists k :: 0 <= k < |r| && r[k].CheckError?) <==> |f.alphabet| < 16
    ensures (exists k :: 0 <= k < |r| && r[k].CheckWarning?) <==> (f.salt == None || f.salt == Some(""))
    // At most the two messages of the field's own checks, the error first.
    ensures |r| <= 2
    ensures forall k :: 0 <= k < |r| ==>
              r[k] == AlphabetTooShort("HashidField") || (r[k].CheckWarning? && r[k].id == "HashidField.W001")
    ensures |r| == 2 ==> r[0].CheckError? && r[1].CheckWarning?
  {
    var errors := CheckAlphabetMinLength(f);
    var warnings := CheckSaltIsSet(f);
    var r := errors + warnings;
    assert errors != [] ==> r[0] == errors[0];
    assert warnings != [] ==> r[|r| - 1] == warnings[0];
    r
  }

  // ---------------------------------------------------------------------
  // Lookup table

  const ExactLookups: seq<string> := ["exact", "iexact", "contains", "icontains"]
  const IterableLookups: seq<string> := ["in"]
  const PassthroughLookups: seq<string> := ["isnull"]

  /** The lookup class `get_lookup` hands back; `ParentLookup` is whatever the
      parent field class registers for the name, `NoLookup` is `None`. */
  datatype LookupClass = HashidLookup | HashidIterableLookup | ParentLookup(name: string) | NoLookup

  /** `get_lookup(lookup_name)`. */
  function GetLookup(name: string): (r: LookupClass)
    ensures r == HashidLookup <==> name in ExactLookups
    ensures r == HashidIterableLookup <==> name in IterableLookups
    ensures r == ParentLookup(name) <==> name in PassthroughLookups
    ensures r == NoLookup <==> name !in ExactLookups + IterableLookups + PassthroughLookups
  {
    if name in ExactLookups then HashidLookup
    else if name in IterableLookups then HashidIterableLookup
    else if name in PassthroughLookups then ParentLookup(name)
    else NoLookup
  }

  // ---------------------------------------------------------------------
  // Conversions

  /** `encode_id(id)`: a `Hashid` with the field's settings. */
  function EncodeId(codec: Codec, f: HashidField, v: Value): (r: Result<Hashid, Error>)
    ensures r.Ok? ==> WellFormed(codec, r.value) && r.value.cfg == ConfigOf(f)
  {
    New(codec, ConfigOf(f), v)
  }

  /** The exceptions of the conversions. */
  datatype FieldError =
    | ValidationInvalid   // ValidationError with code 'invalid'
    | ValueInvalid        // ValueError with the 'invalid' message

  /** `from_db_value`: `None` stays `None`; anything else is wrapped, and a
      `ValueError` of the constructor propagates. */
  function FromDbValue(codec: Codec, f: HashidField, v: Value): (r: Result<Option<Hashid>, Error>)
    ensures v.NoneVal? ==> r == Ok(None)
    ensures !v.NoneVal? ==> (r.Ok? <==> EncodeId(codec, f, v).Ok?)
    ensures !v.NoneVal? && r.Ok? ==> r.value == Some(EncodeId(codec, f, v).value)
    ensures !v.NoneVal? && r.Err? ==> r.error == EncodeId(codec, f, v).error
  {
    if v.NoneVal? then Ok(None)
    else match EncodeId(codec, f, v)
      case Ok(h) => Ok(Some(h))
      case Err(e) => Err(e)
  }

  /** `to_python`: a Hashid is returned unchanged, `None` stays `None`, and
      anything else goes through `encode_id`, whose `ValueError` becomes a
      `ValidationError`. */
  function ToPython(codec: Codec, f: HashidField, v: Value): (r: Result<Option<Hashid>, FieldError>)
    ensures v.HashidVal? ==> r == Ok(Some(v.h))
    ensures v.NoneVal? ==> r == Ok(None)
    ensures !v.HashidVal? && !v.NoneVal? ==> (r.Ok? <==> EncodeId(codec, f, v).Ok?)
    ensures !v.HashidVal? && !v.NoneVal? && r.Ok? ==> r.value == Some(EncodeId(codec, f, v).value)
    ensures r.Err? ==> r.error == ValidationInvalid
  {
    if v.HashidVal? then Ok(Some(v.h))
    else if v.NoneVal? then Ok(None)
    else match EncodeId(codec, f, v)
      case Ok(h) => Ok(Some(h))
      case Err(_) => Err(ValidationInvalid)
  }

  /** `to_python` is idempotent: converting its result again changes nothing. */
  lemma ToPythonIdempotent(codec: Codec, f: HashidField, v: Value)
    requires ToPython(codec, f, v).Ok?
    ensures var once := ToPython(codec, f, v).value;
            ToPython(codec, f, if once.Some? then HashidVal(once.value) else NoneVal) == Ok(once)
  {
  }

  /** `value is None or value == ''`; a Hashid compares with `''` through its
      string. */
  predicate IsNoneOrEmpty(v: Value)
  {
    v.NoneVal? || v == Str("") || (v.HashidVal? && Eq(v.h, Str("")))
  }

  /** `get_prep_value`: `None` and `''` become `None`, a Hashid its id, and
      anything else the id of `encode_id(value)`, whose `ValueError` is
      re-raised with the 'invalid' message. */
  function GetPrepValue(codec: Codec, f: HashidField, v: Value): (r: Result<Option<nat>, FieldError>)
    ensures IsNoneOrEmpty(v) ==> r == Ok(None)
    ensures !IsNoneOrEmpty(v) && v.HashidVal? ==> r == Ok(Some(v.h.id))
    ensures !IsNoneOrEmpty(v) && !v.HashidVal? ==> (r.Ok? <==> EncodeId(codec, f, v).Ok?)
    ensures !IsNoneOrEmpty(v) && !v.HashidVal? && r.Ok? ==> r.value == Some(EncodeId(codec, f, v).value.id)
    ensures r.Err? ==> r.error == ValueInvalid
  {
    if IsNoneOrEmpty(v) then Ok(None)
    else if v.HashidVal? then Ok(Some(v.h.id))
    else match EncodeId(codec, f, v)
      case Ok(h) => Ok(Some(h.id))
      case Err(_) => Err(ValueInvalid)
  }

  /** The two conversions agree: whatever `to_python` turns a value into,
      `get_prep_value` of the value and of that Hashid is its id (unless the
      value or the Hashid's string is the empty string). */
  lemma PrepAgreesWithToPython(codec: Codec, f: HashidField, v: Value, h: Hashid)
    requires ToPython(codec, f, v) == Ok(Some(h))
    requires v != Str("") && h.hashid != ""
    ensures GetPrepValue(codec, f, v) == Ok(Some(h.id))
    ensures GetPrepValue(codec, f, HashidVal(h)) == Ok(Some(h.id))
  {
  }

  /** A database id survives the trip through `from_db_value` and back
      through `get_prep_value` (when its encoding is not the empty string). */
  lemma DatabaseRoundTrip(codec: Codec, f: HashidField, n: nat)
    requires codec.encode(ConfigOf(f), n) != ""
    ensures FromDbValue(codec, f, Int(n)).Ok? && FromDbValue(codec, f, Int(n)).value.Some?
    ensures var h := FromDbValue(codec, f, Int(n)).value.value;
            h.id == n && GetPrepValue(codec, f, HashidVal(h)) == Ok(Some(n))
  {
  }

  /** A positive id's canonical string prepares to that id, given the codec's
      round trip. */
  lemma HashidStringPreparesToId(codec: Codec, f: HashidField, n: nat)
    requires n > 0 && RoundTripsAt(codec, ConfigOf(f), n) && codec.encode(ConfigOf(f), n) != ""
    ensures GetPrepValue(codec, f, Str(codec.encode(ConfigOf(f), n))) == Ok(Some(n))
  {
    DecodeOneOfEncoding(codec, ConfigOf(f), n);
  }
}

=== FILE: identifier.dfy ===
/** The identifier value type of `hashid_field`: a `Hashid` pairs a
    non-negative `id` with its Hashids string. Its fields are assigned once,
    in the constructor, and the lazily cached string is a function of `id`,
    so the value is modelled as an immutable datatype whose `hashid` is the
    codec's encoding of `id` (`WellFormed`). */
module Identifier {
  import opened Base

  datatype Hashid = Hashid(id: nat, hashid: string, cfg: Config)

  /** The Python values a `Hashid` constructor, a field or a lookup can be
      handed. `Other` is any object `int()` rejects (a list, a dict, ...). */
  datatype Value =
    | Int(i: int)
    | Str(s: string)
    | NoneVal
    | HashidVal(h: Hashid)
    | Other

  /** The two `ValueError` messages of the constructor. */
  datatype Error =
    | NotIntegerOrHashid   // "id must be a positive integer or valid Hashid value"
    | NotPositive          // "id must be a positive integer"

  /** The cached string is the codec's encoding of `id` under the Hashid's own settings. */
  predicate WellFormed(codec: Codec, h: Hashid)
  {
    h.hashid == codec.encode(h.cfg, h.id)
  }

  /** `self.decode(v)`: the `hashids` package decodes only strings; any other
      value decodes to the empty tuple, hence to nothing. */
  function DecodeValue(codec: Codec, cfg: Config, v: Value): (r: Option<nat>)
    ensures r.Some? <==> v.Str? && |codec.decode(cfg, v.s)| == 1
    ensures r.Some? ==> codec.decode(cfg, v.s) == [r.value]
  {
    if v.Str? then DecodeOne(codec, cfg, v.s) else None
  }

  /** Python's `int(v)`; a `Hashid` converts through `__int__`. */
  function IntOf(v: Value): Option<int>
  {
    match v
    case Int(i) => Some(i)
    case Str(s) => ParseDecimal(s)
    case HashidVal(h) => Some(h.id)
    case NoneVal => None
    case Other => None
  }

  /** The constructor's first test: a non-negative integer is used as is. */
  predicate IsFastPath(v: Value)
  {
    v.Int? && v.i >= 0
  }

  /** The second test: a single decoded integer that Python finds truthy. */
  predicate DecodesTruthy(codec: Codec, cfg: Config, v: Value)
  {
    var d := DecodeValue(codec, cfg, v);
    d.Some? && d.value != 0
  }

  /** `Hashid(v, salt, min_length, alphabet)`. */
  function New(codec: Codec, cfg: Config, v: Value): (r: Result<Hashid, Error>)
    ensures r.Ok? ==> WellFormed(codec, r.value) && r.value.cfg == cfg
    // The id: a truthy single decode wins; otherwise it is `int(v)`.
    ensures r.Ok? && DecodesTruthy(codec, cfg, v) ==> r.value.id == DecodeValue(codec, cfg, v).value
    ensures r.Ok? && !DecodesTruthy(codec, cfg, v) ==> IntOf(v).Some? && r.value.id == IntOf(v).value
    ensures r.Err? <==>
              !IsFastPath(v) && !DecodesTruthy(codec, cfg, v) &&
              (IntOf(v).None? || IntOf(v).value < 0)
  {
    if IsFastPath(v) then
      Ok(Hashid(v.i, codec.encode(cfg, v.i), cfg))
    else if DecodesTruthy(codec, cfg, v) then
      var k := DecodeValue(codec, cfg, v).value;
      Ok(Hashid(k, codec.encode(cfg, k), cfg))
    else
      match IntOf(v)
      case None => Err(NotIntegerOrHashid)
      case Some(n) => if n < 0 then Err(NotPositive) else Ok(Hashid(n, codec.encode(cfg, n), cfg))
  }

  /** A non-negative integer becomes the id unchanged; the codec's decode
      plays no part in the outcome. */
  lemma NewFromInteger(codec: Codec, cfg: Config, n: nat)
    ensures New(codec, cfg, Int(n)) == Ok(Hashid(n, codec.encode(cfg, n), cfg))
  {
  }

  /** A value whose single decode is truthy gets that value as its id. */
  lemma NewFromHashidString(codec: Codec, cfg: Config, s: string, k: nat)
    requires codec.decode(cfg, s) == [k] && k != 0
    ensures New(codec, cfg, Str(s)).Ok?
    ensures New(codec, cfg, Str(s)).value.id == k
  {
  }

  /** A decimal string that the codec does not decode to one truthy value
      falls through to `int()`, which gives its value as the id. */
  lemma NewFromDecimalString(codec: Codec, cfg: Config, n: nat)
    requires !DecodesTruthy(codec, cfg, Str(DecimalString(n)))
    ensures New(codec, cfg, Str(DecimalString(n))) == Ok(Hashid(n, codec.encode(cfg, n), cfg))
  {
    ParseDecimalRoundTrip(n);
  }

  /** A Hashid handed to the constructor does not decode (it is not a
      string) and converts through `__int__`: the result has its id, under
      the constructor's own settings. */
  lemma NewFromHashid(codec: Codec, cfg: Config, h: Hashid)
    ensures New(codec, cfg, HashidVal(h)) == Ok(Hashid(h.id, codec.encode(cfg, h.id), cfg))
    ensures WellFormed(codec, h) && h.cfg == cfg ==> New(codec, cfg, HashidVal(h)) == Ok(h)
  {
  }

  /** A decode of 0 is falsy, so the string falls through to `int()`: it is
      accepted only when it is itself a decimal literal, and then `int(s)` is
      the id, not 0. */
  lemma NewZeroDecodeFallsThrough(codec: Codec, cfg: Config, s: string)
    requires codec.decode(cfg, s) == [0]
    ensures !IsDecimalLiteral(s) ==> New(codec, cfg, Str(s)) == Err(NotIntegerOrHashid)
    ensures IsDecimalLiteral(s) && ParseDecimal(s).value >= 0 ==>
              New(codec, cfg, Str(s)).Ok? && New(codec, cfg, Str(s)).value.id == ParseDecimal(s).value
  {
  }

  /** The two errors: an input that neither decodes nor parses, and an input
      that parses to a negative integer. */
  lemma NewRejects(codec: Codec, cfg: Config, v: Value)
    requires !IsFastPath(v) && !DecodesTruthy(codec, cfg, v)
    ensures IntOf(v).None? ==> New(codec, cfg, v) == Err(NotIntegerOrHashid)
    ensures IntOf(v).Some? && IntOf(v).value < 0 ==> New(codec, cfg, v) == Err(NotPositive)
  {
  }

  /** `Hashid(-5)` raises whatever the codec; `Hashid("-5")` raises unless
      the codec happens to decode the string "-5" to one truthy value. */
  lemma NegativeRejected(codec: Codec, cfg: Config, n: nat)
    requires n > 0
    ensures New(codec, cfg, Int(-(n as int))) == Err(NotPositive)
    ensures !DecodesTruthy(codec, cfg, Str("-" + DecimalString(n))) ==>
              New(codec, cfg, Str("-" + DecimalString(n))) == Err(NotPositive)
  {
    ParseDecimalRoundTrip(n);
  }

  // ---------------------------------------------------------------------
  // Coercions

  /** `str(h)`; a Hashid equals its own string. */
  function AsString(h: Hashid): (r: string)
    ensures Eq(h, Str(r))
  {
    h.hashid
  }

  /** `int(h)`; a Hashid equals its own integer, which is what `int()`
      makes of it. */
  function AsInt(h: Hashid): (r: nat)
    ensures Eq(h, Int(r)) && IntOf(HashidVal(h)) == Some(r as int)
  {
    h.id
  }

  /** `len(h)`: the length of its string. */
  function Length(h: Hashid): (r: nat)
    ensures r == |AsString(h)|
  {
    |h.hashid|
  }

  /** `hash(h)` is taken over the string, so the string is the hash key: a
      Hashid and its string fall in the same bucket. */
  function HashKey(h: Hashid): (r: string)
    ensures r == AsString(h)
  {
    h.hashid
  }

  /** Constructing from an integer: `int(h)` is that integer and `str(h)`
      and `len(h)` are those of the codec's encoding. */
  lemma CoercionsOfNew(codec: Codec, cfg: Config, n: nat)
    ensures New(codec, cfg, Int(n)).Ok?
    ensures AsInt(New(codec, cfg, Int(n)).value) == n
    ensures AsString(New(codec, cfg, Int(n)).value) == codec.encode(cfg, n)
    ensures Length(New(codec, cfg, Int(n)).value) == |codec.encode(cfg, n)|
  {
  }

  // ---------------------------------------------------------------------
  // Comparison

  /** `h == other`: another Hashid compares id and string, a string compares
      with the Hashid's string, an integer with its id; any other operand is
      `NotImplemented`, which Python turns into `False`. */
  function Eq(h: Hashid, other: Value): (r: bool)
    ensures r ==> !other.NoneVal? && !other.Other?
    ensures other.Str? ==> (r <==> other.s == h.hashid)
    ensures other.Int? ==> (r <==> other.i == h.id)
    ensures other.HashidVal? ==> (r <==> other.h.id == h.id && other.h.hashid == h.hashid)
  {
    match other
    case HashidVal(o) => h.id == o.id && h.hashid == o.hashid
    case Str(s) => h.hashid == s
    case Int(i) => h.id == i
    case NoneVal => false
    case Other => false
  }

  /** `h < other`; `None` is `NotImplemented`, which raises `TypeError`. */
  function Lt(h: Hashid, other: Value): (r: Option<bool>)
    ensures r.Some? <==> other.HashidVal? || other.Int?
    ensures r.Some? ==> (r.value <==> h.id < IntOf(other).value)
  {
    match other
    case HashidVal(o) => Some(h.id < o.id)
    case Int(i) => Some(h.id < i)
    case _ => None
  }

  /** A Hashid equals its own string and its own integer. */
  lemma EqCoercions(h: Hashid)
    ensures Eq(h, Str(AsString(h))) && Eq(h, Int(AsInt(h)))
  {
  }

  /** Equality between Hashids is an equivalence, and equal Hashids hash
      equally. */
  lemma EqEquivalence(a: Hashid, b: Hashid, c: Hashid)
    ensures Eq(a, HashidVal(a))
    ensures Eq(a, HashidVal(b)) ==> Eq(b, HashidVal(a))
    ensures Eq(a, HashidVal(b)) && Eq(b, HashidVal(c)) ==> Eq(a, HashidVal(c))
    ensures Eq(a, HashidVal(b)) ==> HashKey(a) == HashKey(b)
  {
  }

  /** Two well-formed Hashids built with the same settings are equal exactly
      when their ids are. */
  lemma EqSameConfig(codec: Codec, a: Hashid, b: Hashid)
    requires WellFormed(codec, a) && WellFormed(codec, b) && a.cfg == b.cfg
    ensures Eq(a, HashidVal(b)) <==> a.id == b.id
  {
  }

  /** Ordering looks at the id only: it is irreflexive and transitive, and two
      Hashids neither of which is below the other have equal ids. */
  lemma LtOrdersById(a: Hashid, b: Hashid, c: Hashid)
    ensures Lt(a, HashidVal(b)) == Some(a.id < b.id)
    ensures Lt(a, HashidVal(a)) == Some(false)
    ensures Lt(a, HashidVal(b)) == Some(true) && Lt(b, HashidVal(c)) == Some(true) ==> Lt(a, HashidVal(c)) == Some(true)
    ensures Lt(a, HashidVal(b)) == Some(false) && Lt(b, HashidVal(a)) == Some(false) ==> a.id == b.id
  {
  }

  /** A list with no pair out of order under `<` is one sorted by id. */
  predicate SortedByLt(hs: seq<Hashid>)
  {
    forall i, j :: 0 <= i < j < |hs| ==> Lt(hs[j], HashidVal(hs[i])) == Some(false)
  }

  lemma SortedByLtIsSortedById(hs: seq<Hashid>)
    ensures SortedByLt(hs) <==> forall i, j :: 0 <= i < j < |hs| ==> hs[i].id <= hs[j].id
  {
  }

  // ---------------------------------------------------------------------
  // Round trips

  /** `Hashid(Hashid(n).hashid) == Hashid(n)` for n > 0, given the codec's
      own round trip at n. */
  lemma {:induction false} HashidStringRoundTrip(codec: Codec, cfg: Config, n: nat)
    requires n > 0 && RoundTripsAt(codec, cfg, n)
    ensures New(codec, cfg, Str(codec.encode(cfg, n))) == New(codec, cfg, Int(n))
    ensures Eq(New(codec, cfg, Str(codec.encode(cfg, n))).value, HashidVal(New(codec, cfg, Int(n)).value))
  {
    DecodeOneOfEncoding(codec, cfg, n);
  }

  /** `h.__reduce__()`: the class and the constructor arguments. */
  function Reduce(h: Hashid): (r: (nat, Option<string>, nat, string))
    ensures r.0 == AsInt(h) && Config(r.1, r.2, r.3) == h.cfg
  {
    (h.id, h.cfg.salt, h.cfg.minLength, h.cfg.alphabet)
  }

  /** Rebuilding from the reduce tuple yields the same Hashid. */
  lemma ReduceRebuilds(codec: Codec, h: Hashid)
    requires WellFormed(codec, h)
    ensures var (id, salt, minLength, alphabet) := Reduce(h);
            New(codec, Config(salt, minLength, alphabet), Int(id)) == Ok(h)
  {
  }
}

=== FILE: legacy_descriptor.dfy ===
/** `HashidDescriptor` of the older `hashids_field` package. An assignment
    to an instance that already holds a truthy Hashid updates that Hashid
    object in place with `set`, so every other reference to the object sees
    the new id; otherwise the slot of the instance's `__dict__` is written. */
module LegacyDescriptor {
  import opened Base
  import opened LegacyIdentifier

  /** Python truthiness of a slot's value; a Hashid is truthy when its string
      is not empty (it defines `__len__` and no `__bool__`), and an arbitrary
      object is truthy. */
  function Truthy(v: Value): (r: bool)
    reads if v.HashidVal? then {v.h} else {}
    ensures v.NoneVal? ==> !r
    ensures v.HashidVal? ==> (r <==> v.h.AsString() != "")
    ensures v.Str? ==> (r <==> |v.s| != 0)
    ensures v.Int? ==> (r <==> v.i != 0)
    ensures v.Other? ==> r
  {
    match v
    case Int(i) => i != 0
    case Str(s) => s != ""
    case NoneVal => false
    case HashidVal(h) => h.Length() != 0
    case Other => true
  }

  /** The Hashid object an assignment may update in place, if any. */
  function HeldHashid(instance: ModelInstance<Value>, name: string): set<Hashid>
    reads instance
  {
    if name in instance.dict && instance.dict[name].HashidVal? then {instance.dict[name].h} else {}
  }

  class HashidDescriptor {
    const name: string
    const cfg: Config
    const codec: Codec

    /** `HashidDescriptor(name, salt, min_length, alphabet)`. */
    constructor (name: string, cfg: Config, codec: Codec)
      ensures this.name == name && this.cfg == cfg && this.codec == codec
    {
      this.name := name;
      this.cfg := cfg;
      this.codec := codec;
    }

    /** `__get__`: before any assignment the attribute reads as `None`. */
    function Get(instance: ModelInstance<Value>): (v: Value)
      reads instance
      ensures name !in instance.dict ==> v == NoneVal
      ensures name in instance.dict ==> v == instance.dict[name]
    {
      if name in instance.dict then instance.dict[name] else NoneVal
    }

    /** `__set__`. The source calls `set` on any truthy value held in the
        slot, which raises `AttributeError` unless it is a Hashid; callers
        therefore never leave a truthy raw value there. */
    method Set(instance: ModelInstance<Value>, value: Value)
      requires name in instance.dict && Truthy(instance.dict[name]) ==> instance.dict[name].HashidVal?
      modifies instance, HeldHashid(instance, name)
      // A Hashid or None is stored as is, and no Hashid object changes.
      ensures value.HashidVal? || value.NoneVal? ==>
                instance.dict == old(instance.dict)[name := value] &&
                forall h :: h in old(HeldHashid(instance, name)) ==> unchanged(h)
      // A truthy Hashid is held: it is updated in place and stays in the slot,
      // or, when `set` refuses the value, keeps its fields and the slot gets the raw value.
      ensures !value.HashidVal? && !value.NoneVal? && old(name in instance.dict && Truthy(instance.dict[name])) ==>
                var h := old(instance.dict[name].h);
                && (SetOutcome(h.codec, h.cfg, value).Ok? ==>
                      instance.dict == old(instance.dict) &&
                      (h.id, h.hashid) == SetOutcome(h.codec, h.cfg, value).value && h.Valid())
                && (SetOutcome(h.codec, h.cfg, value).Err? ==>
                      instance.dict == old(instance.dict)[name := value] &&
                      h.id == old(h.id) && h.hashid == old(h.hashid))
      // Nothing truthy is held: a new Hashid with the descriptor's settings, or the raw value.
      ensures !value.HashidVal? && !value.NoneVal? && !old(name in instance.dict && Truthy(instance.dict[name])) ==>
                && (forall h :: h in old(HeldHashid(instance, name)) ==> unchanged(h))
                && (SetOutcome(codec, cfg, value).Ok? ==>
                      name in instance.dict && instance.dict[name].HashidVal? &&
                      fresh(instance.dict[name].h) && instance.dict[name].h.Valid() &&
                      instance.dict[name].h.codec == codec && instance.dict[name].h.cfg == cfg &&
                      (instance.dict[name].h.id, instance.dict[name].h.hashid) == SetOutcome(codec, cfg, value).value &&
                      instance.dict == old(instance.dict)[name := instance.dict[name]])
                && (SetOutcome(codec, cfg, value).Err? ==>
                      instance.dict == old(instance.dict)[name := value])
    {
      if value.HashidVal? || value.NoneVal? {
        instance.dict := instance.dict[name := value];
      } else {
        var existing := if name in instance.dict then instance.dict[name] else NoneVal;
        if Truthy(existing) {
          var outcome := existing.h.Set(value);
          if outcome.Err? {
            instance.dict := instance.dict[name := value];
          }
        } else {
          var created := Create(codec, cfg, value);
          if created.Ok? {
            instance.dict := instance.dict[name := HashidVal(created.value)];
          } else {
            instance.dict := instance.dict[name := value];
          }
        }
      }
    }
  }

  /** Aliasing: a reference taken to the Hashid an instance holds sees the id
      of a later valid assignment, because the object is updated in place. */
  method AliasSeesUpdate(codec: Codec, cfg: Config, first: nat, second: nat) returns (alias: Hashid, held: Value)
    requires codec.encode(cfg, first) != ""
    ensures alias.id == second && alias.hashid == codec.encode(cfg, second)
    ensures held == HashidVal(alias)
  {
    var d := new HashidDescriptor("hashid", cfg, codec);
    var t := new ModelInstance<Value>();
    d.Set(t, Int(first));
    held := d.Get(t);
    alias := held.h;
    d.Set(t, Int(second));
    held := d.Get(t);
  }

  /** A refused assignment leaves the slot holding the raw value and the
      Hashid previously held unmodified. */
  method RefusedKeepsOldHashid(codec: Codec, cfg: Config, first: nat, bad: int) returns (previous: Hashid, held: Value)
    requires codec.encode(cfg, first) != "" && bad < 0
    ensures previous.id == first && previous.hashid == codec.encode(cfg, first)
    ensures held == Int(bad)
  {
    var d := new HashidDescriptor("hashid", cfg, codec);
    var t := new ModelInstance<Value>();
    d.Set(t, Int(first));
    previous := d.Get(t).h;
    d.Set(t, Int(bad));
    held := d.Get(t);
  }
}

=== FILE: legacy_field.dfy ===
/** `HashidsFieldMixin` of the older `hashids_field` package: the alphabet
    check, `encode_id` with its error wrapping, the conversions, and
    `pre_save`, which writes the converted value back onto the instance. */
module LegacyField {
  import opened Base
  import opened LegacyIdentifier

  /** The field's settings; the salt is the project's `SECRET_KEY`, passed
      in rather than read from global settings. */
  datatype HashidsField = HashidsField(minLength: nat, alphabet: string, secretKey: string, attname: string)

  /** The codec settings `encode_id` builds a `Hashid` with. */
  function ConfigOf(f: HashidsField): Config
  {
    Config(Some(f.secretKey), f.minLength, f.alphabet)
  }

  /** `_check_alphabet_min_length`: error E001 exactly when the alphabet has
      fewer than 16 characters. */
  function CheckAlphabetMinLength(f: HashidsField): (r: seq<CheckMessage>)
    ensures r != [] <==> |f.alphabet| < 16
    ensures r != [] ==> r == [AlphabetTooShort("HashidsField")]
  {
    if |f.alphabet| < 16 then [AlphabetTooShort("HashidsField")] else []
  }

  /** The one exception of the conversions: `ValidationError` with code 'invalid'. */
  datatype FieldError = ValidationInvalid

  /** What `to_python` (and so `pre_save`) yields for `v`: `None` and a
      Hashid unchanged, anything else a Hashid built by `encode_id` with the
      field's settings, or `ValidationError` when `set` refuses it. */
  ghost predicate IsToPython(codec: Codec, f: HashidsField, v: Value, r: Result<Value, FieldError>)
    reads if r.Ok? && r.value.HashidVal? then {r.value.h} else {}
  {
    if v.NoneVal? || v.HashidVal? then r == Ok(v)
    else
      && (r.Ok? <==> SetOutcome(codec, ConfigOf(f), v).Ok?)
      && (r.Ok? ==> r.value.HashidVal? && r.value.h.codec == codec && r.value.h.cfg == ConfigOf(f) && r.value.h.Valid() &&
                    (r.value.h.id, r.value.h.hashid) == SetOutcome(codec, ConfigOf(f), v).value)
      && (r.Err? ==> r.error == ValidationInvalid)
  }

  /** `encode_id(id)`: a new Hashid with the field's settings; the
      constructor's `ValueError` becomes a `ValidationError`. */
  method EncodeId(codec: Codec, f: HashidsField, v: Value) returns (r: Result<Hashid, FieldError>)
    ensures r.Ok? <==> SetOutcome(codec, ConfigOf(f), v).Ok?
    ensures r.Ok? ==> fresh(r.value) && r.value.Valid() && r.value.codec == codec && r.value.cfg == ConfigOf(f)
    ensures r.Ok? ==> (r.value.id, r.value.hashid) == SetOutcome(codec, ConfigOf(f), v).value
  {
    var created := Create(codec, ConfigOf(f), v);
    if created.Ok? {
      r := Ok(created.value);
    } else {
      r := Err(ValidationInvalid);
    }
  }

  /** `from_db_value`: `None` passes through; any other value is wrapped. */
  method FromDbValue(codec: Codec, f: HashidsField, v: Value) returns (r: Result<Value, FieldError>)
    ensures v.NoneVal? ==> r == Ok(NoneVal)
    ensures !v.NoneVal? ==> (r.Ok? <==> SetOutcome(codec, ConfigOf(f), v).Ok?)
    ensures !v.NoneVal? && r.Ok? ==>
              r.value.HashidVal? && fresh(r.value.h) && r.value.h.Valid() &&
              r.value.h.codec == codec && r.value.h.cfg == ConfigOf(f) &&
              (r.value.h.id, r.value.h.hashid) == SetOutcome(codec, ConfigOf(f), v).value
  {
    if v.NoneVal? {
      return Ok(v);
    }
    var encoded := EncodeId(codec, f, v);
    if encoded.Ok? {
      r := Ok(HashidVal(encoded.value));
    } else {
      r := Err(encoded.error);
    }
  }

  /** `to_python`: `None` and a Hashid unchanged, anything else through
      `encode_id`; a Hashid it builds is a new object. */
  method ToPython(codec: Codec, f: HashidsField, v: Value) returns (r: Result<Value, FieldError>)
    ensures IsToPython(codec, f, v, r)
    ensures !v.HashidVal? && r.Ok? && r.value.HashidVal? ==> fresh(r.value.h)
  {
    if v.NoneVal? || v.HashidVal? {
      return Ok(v);
    }
    var encoded := EncodeId(codec, f, v);
    if encoded.Ok? {
      r := Ok(HashidVal(encoded.value));
    } else {
      r := Err(encoded.error);
    }
  }

  /** `get_prep_value`: `None` to `None`, a Hashid to its id, anything else to
      the id `set` would give it, or `ValidationError`. */
  method GetPrepValue(codec: Codec, f: HashidsField, v: Value) returns (r: Result<Option<nat>, FieldError>)
    ensures v.NoneVal? ==> r == Ok(None)
    ensures v.HashidVal? ==> r == Ok(Some(v.h.id))
    ensures !v.NoneVal? && !v.HashidVal? ==>
              r == (match SetOutcome(codec, ConfigOf(f), v)
                    case Ok(p) => Ok(Some(p.0))
                    case Err(_) => Err(ValidationInvalid))
  {
    if v.NoneVal? {
      return Ok(None);
    }
    if v.HashidVal? {
      return Ok(Some(v.h.id));
    }
    var encoded := EncodeId(codec, f, v);
    if encoded.Ok? {
      assert SetOutcome(codec, ConfigOf(f), v).value.0 == encoded.value.id;
      r := Ok(Some(encoded.value.id));
    } else {
      r := Err(ValidationInvalid);
    }
  }

  /** A Hashid string and its integer prepare to the same id: the string's
      truthy single decode, and the integer itself. */
  method PrepareStringAndInteger(codec: Codec, f: HashidsField, n: nat) returns (fromString: Result<Option<nat>, FieldError>, fromInt: Result<Option<nat>, FieldError>)
    requires n > 0 && RoundTripsAt(codec, ConfigOf(f), n)
    ensures fromString == fromInt == Ok(Some(n))
  {
    DecodeOneOfEncoding(codec, ConfigOf(f), n);
    fromString := GetPrepValue(codec, f, Str(codec.encode(ConfigOf(f), n)));
    fromInt := GetPrepValue(codec, f, Int(n));
  }

  /** `pre_save(model_instance, add)`: the attribute's current value is
      converted with `to_python`, written back, and returned; a failing
      conversion raises before anything is written. */
  method PreSave(codec: Codec, f: HashidsField, instance: ModelInstance<Value>, add: bool) returns (r: Result<Value, FieldError>)
    requires f.attname in instance.dict
    modifies instance
    ensures IsToPython(codec, f, old(instance.dict[f.attname]), r)
    ensures r.Ok? ==> instance.dict == old(instance.dict)[f.attname := r.value]
    ensures r.Err? ==> instance.dict == old(instance.dict)
  {
    var value := instance.dict[f.attname];
    r := ToPython(codec, f, value);
    if r.Ok? {
      instance.dict := instance.dict[f.attname := r.value];
    }
  }
}

=== FILE: legacy_identifier.dfy ===
/** The identifier of the older `hashids_field` package. Unlike its
    successor, its `Hashid` is mutable: `set(value)` reassigns `id` and
    `hashid` on a live object, and the descriptor calls it on the object
    already held by an instance, so it is modelled as a class. */
module LegacyIdentifier {
  import opened Base

  /** The Python values this generation's constructor, field and descriptor
      see. `Other` is any object `int()` rejects. A `Hashid` of this
      generation has no `__int__`, so `int()` rejects it too. */
  datatype Value =
    | Int(i: int)
    | Str(s: string)
    | NoneVal
    | HashidVal(h: Hashid)
    | Other

  /** The two `ValueError` messages of `set`. */
  datatype Error =
    | NotIntegerOrHashid   // "id must be a positive integer or valid Hashid value"
    | NotPositive          // "id must be a positive integer"

  /** Python's `int(v)`. */
  function IntOf(v: Value): Option<int>
  {
    match v
    case Int(i) => Some(i)
    case Str(s) => ParseDecimal(s)
    case _ => None
  }

  /** `self.decode(v)`: only strings decode. */
  function DecodeValue(codec: Codec, cfg: Config, v: Value): (r: Option<nat>)
    ensures r.Some? <==> v.Str? && |codec.decode(cfg, v.s)| == 1
    ensures r.Some? ==> codec.decode(cfg, v.s) == [r.value]
  {
    if v.Str? then DecodeOne(codec, cfg, v.s) else None
  }

  /** The `(id, hashid)` pair `set(v)` assigns, or the error it raises before
      assigning anything. A truthy single decode keeps the given string
      verbatim; an integer gets the codec's encoding. */
  function SetOutcome(codec: Codec, cfg: Config, v: Value): (r: Result<(nat, string), Error>)
    ensures r.Ok? ==> (r.value.1 == codec.encode(cfg, r.value.0)) ||
                      (v == Str(r.value.1) && DecodeOne(codec, cfg, r.value.1) == Some(r.value.0) && r.value.0 != 0)
    ensures r.Err? <==> (DecodeValue(codec, cfg, v).None? || DecodeValue(codec, cfg, v).value == 0) &&
                        (IntOf(v).None? || IntOf(v).value < 0)
    ensures r.Err? ==> (r.error == NotIntegerOrHashid <==> IntOf(v).None?)
    // A truthy single decode keeps the string; otherwise the id is `int(v)`
    // and the string its encoding.
    ensures r.Ok? && DecodeValue(codec, cfg, v).Some? && DecodeValue(codec, cfg, v).value != 0 ==>
              r.value == (DecodeValue(codec, cfg, v).value, v.s)
    ensures r.Ok? && !(DecodeValue(codec, cfg, v).Some? && DecodeValue(codec, cfg, v).value != 0) ==>
              IntOf(v).Some? && r.value == (IntOf(v).value, codec.encode(cfg, IntOf(v).value))
  {
    var d := DecodeValue(codec, cfg, v);
    if d.Some? && d.value != 0 then Ok((d.value, v.s))
    else match IntOf(v)
      case None => Err(NotIntegerOrHashid)
      case Some(n) => if n < 0 then Err(NotPositive) else Ok((n, codec.encode(cfg, n)))
  }

  /** A string with a single truthy decode is kept as given, even when it is
      not the canonical encoding of its id; a Hashid set from such a string
      then differs from the one set from the integer. */
  lemma SetKeepsStringVerbatim(codec: Codec, cfg: Config, s: string, k: nat)
    requires codec.decode(cfg, s) == [k] && k != 0
    ensures SetOutcome(codec, cfg, Str(s)) == Ok((k, s))
    ensures SetOutcome(codec, cfg, Int(k)) == Ok((k, codec.encode(cfg, k)))
    ensures s != codec.encode(cfg, k) ==> SetOutcome(codec, cfg, Str(s)) != SetOutcome(codec, cfg, Int(k))
  {
  }

  /** An integer is never decoded: a non-negative one is the id and its
      encoding the string, whatever the codec. */
  lemma SetFromInteger(codec: Codec, cfg: Config, n: nat)
    ensures SetOutcome(codec, cfg, Int(n)) == Ok((n, codec.encode(cfg, n)))
  {
  }

  /** A decimal string without a truthy single decode goes through `int()`:
      its value is the id and the string is replaced by the encoding. */
  lemma SetFromDecimalString(codec: Codec, cfg: Config, n: nat)
    requires DecodeValue(codec, cfg, Str(DecimalString(n))).None? ||
             DecodeValue(codec, cfg, Str(DecimalString(n))).value == 0
    ensures SetOutcome(codec, cfg, Str(DecimalString(n))) == Ok((n, codec.encode(cfg, n)))
  {
    ParseDecimalRoundTrip(n);
  }

  /** Negative integers and values that neither decode nor parse are refused. */
  lemma SetRejects(codec: Codec, cfg: Config, n: nat)
    requires n > 0
    ensures SetOutcome(codec, cfg, Int(-(n as int))) == Err(NotPositive)
    ensures SetOutcome(codec, cfg, NoneVal) == Err(NotIntegerOrHashid)
    ensures SetOutcome(codec, cfg, Other) == Err(NotIntegerOrHashid)
  {
  }

  class Hashid {
    const codec: Codec
    const cfg: Config
    var id: nat
    var hashid: string

    /** The pair was produced by `set`: either the string is the codec's
        encoding of the id, or it is a string that decodes to exactly that
        (truthy) id. */
    ghost predicate Valid()
      reads this
    {
      hashid == codec.encode(cfg, id) || (DecodeOne(codec, cfg, hashid) == Some(id) && id != 0)
    }

    /** The allocation part of `Hashid(...)`: the codec is built from the
        settings. The fields hold placeholders until `Set` assigns them (an
        object whose `set` raises is never handed out). */
    constructor (codec: Codec, cfg: Config)
      ensures this.codec == codec && this.cfg == cfg && id == 0 && hashid == ""
    {
      this.codec := codec;
      this.cfg := cfg;
      id := 0;
      hashid := "";
    }

    /** `set(value)`: on success both fields are reassigned and the new string
        is returned; on failure neither field has changed. */
    method Set(value: Value) returns (r: Result<string, Error>)
      modifies this
      ensures r.Ok? <==> SetOutcome(codec, cfg, value).Ok?
      ensures r.Ok? ==> (id, hashid) == SetOutcome(codec, cfg, value).value && r.value == hashid && Valid()
      ensures r.Err? ==> r.error == SetOutcome(codec, cfg, value).error && id == old(id) && hashid == old(hashid)
    {
      var d := DecodeValue(codec, cfg, value);
      if d.Some? && d.value != 0 {
        id := d.value;
        hashid := value.s;
        return Ok(hashid);
      }
      var parsed := IntOf(value);
      if parsed.None? {
        return Err(NotIntegerOrHashid);
      }
      if parsed.value < 0 {
        return Err(NotPositive);
      }
      id := parsed.value;
      hashid := codec.encode(cfg, id);
      r := Ok(hashid);
    }

    /** `str(h)`: of a valid Hashid, a string that identifies its id, the
        canonical encoding or one that decodes to it. */
    function AsString(): (r: string)
      reads this
      ensures Valid() ==> r == codec.encode(cfg, id) || DecodeOne(codec, cfg, r) == Some(id)
    {
      hashid
    }

    /** `len(h)`, which is also what makes a Hashid truthy. */
    function Length(): (r: nat)
      reads this
      ensures r == |AsString()|
    {
      |hashid|
    }

    /** `hash(h)` is the id. */
    function HashKey(): (r: int)
      reads this
      ensures r == id
    {
      id
    }

    /** `h == other` for another Hashid; any other operand is `NotImplemented`
        and compares unequal. */
    function Eq(other: Hashid): (r: bool)
      reads this, other
      ensures r <==> HashKey() == other.HashKey() && AsString() == other.AsString()
      ensures other == this ==> r
    {
      id == other.id && hashid == other.hashid
    }

    /** `h < other`: by id against a Hashid or an integer; `None` is
        `NotImplemented`, which raises `TypeError`. */
    function Lt(other: Value): (r: Option<bool>)
      reads this, if other.HashidVal? then {other.h} else {}
      ensures r.Some? <==> other.HashidVal? || other.Int?
      ensures other.HashidVal? ==> r == Some(id < other.h.id)
      ensures other.Int? ==> r == Some(id < other.i)
    {
      match other
      case HashidVal(o) => Some(id < o.id)
      case Int(i) => Some(id < i)
      case _ => None
    }
  }

  /** Equal Hashids hash equally, and ordering is by id alone. */
  lemma EqAndOrderAgree(a: Hashid, b: Hashid)
    ensures a.Eq(b) ==> a.HashKey() == b.HashKey() && b.Eq(a)
    ensures a.Lt(HashidVal(b)) == Some(a.id < b.id)
    ensures a.Eq(b) ==> a.Lt(HashidVal(b)) == Some(false) && b.Lt(HashidVal(a)) == Some(false)
  {
  }

  /** `Hashid(value, salt, min_length, alphabet)`: allocate, then `set`; the
      `ValueError` of `set` propagates out of the constructor. */
  method Create(codec: Codec, cfg: Config, value: Value) returns (r: Result<Hashid, Error>)
    ensures r.Ok? <==> SetOutcome(codec, cfg, value).Ok?
    ensures r.Ok? ==> fresh(r.value) && r.value.Valid() && r.value.codec == codec && r.value.cfg == cfg
    ensures r.Ok? ==> (r.value.id, r.value.hashid) == SetOutcome(codec, cfg, value).value
    ensures r.Err? ==> r.error == SetOutcome(codec, cfg, value).error
  {
    var h := new Hashid(codec, cfg);
    var s := h.Set(value);
    if s.Ok? {
      r := Ok(h);
    } else {
      r := Err(s.error);
    }
  }
}

=== FILE: lookups.dfy ===
/** Query lookups on a Hashid field: turning the right-hand side of an
    `exact`-like or `in` lookup into database ids. */
module Lookups {
  import opened Base
  import opened Identifier

  /** The two `TypeError`s of `get_id_for_hashid_field`, by error message key. */
  datatype LookupError =
    | InvalidValue    // 'invalid': the value is neither an integer nor a Hashids string
    | InvalidHashid   // 'invalid_hashid': integer lookups are off and the value is not canonical

  /** Python's `value == s` for the values a lookup receives: a string
      compares as a string, a Hashid through its `__eq__`, anything else is
      unequal to a string. */
  predicate MatchesString(value: Value, s: string)
  {
    match value
    case Str(t) => t == s
    case HashidVal(h) => Eq(h, Str(s))
    case _ => false
  }

  /** `get_id_for_hashid_field(field, value)`, for a field with settings `cfg`
      whose integer-lookup flag is `allowInt`. */
  function GetIdForHashidField(codec: Codec, cfg: Config, allowInt: bool, value: Value): (r: Result<nat, LookupError>)
    ensures r.Ok? ==> New(codec, cfg, value).Ok? && r.value == New(codec, cfg, value).value.id
    ensures New(codec, cfg, value).Err? ==> r == Err(InvalidValue)
    ensures !allowInt && r.Ok? ==> MatchesString(value, codec.encode(cfg, r.value))
    ensures (!allowInt && New(codec, cfg, value).Ok? &&
             !MatchesString(value, codec.encode(cfg, New(codec, cfg, value).value.id))) ==> r == Err(InvalidHashid)
    ensures (New(codec, cfg, value).Ok? &&
             (allowInt || MatchesString(value, codec.encode(cfg, New(codec, cfg, value).value.id)))) ==>
              r == Ok(New(codec, cfg, value).value.id)
  {
    match New(codec, cfg, value)
    case Err(_) => Err(InvalidValue)
    case Ok(h) =>
      if !allowInt && !MatchesString(value, h.hashid) then Err(InvalidHashid)
      else Ok(h.id)
  }

  /** With integer lookups on, a non-negative integer is its own id. */
  lemma IntegerLookupAllowed(codec: Codec, cfg: Config, n: nat)
    ensures GetIdForHashidField(codec, cfg, true, Int(n)) == Ok(n)
  {
  }

  /** With integer lookups off, no integer is accepted, whatever the codec. */
  lemma IntegerLookupRefused(codec: Codec, cfg: Config, i: int)
    ensures GetIdForHashidField(codec, cfg, false, Int(i)).Err?
  {
  }

  /** With integer lookups off, the canonical string of a positive id is
      accepted as that id (given the codec's round trip), and so is a Hashid
      built with the field's own settings. */
  lemma CanonicalLookupAccepted(codec: Codec, cfg: Config, n: nat, h: Hashid)
    requires n > 0 && RoundTripsAt(codec, cfg, n)
    requires WellFormed(codec, h) && h.cfg == cfg
    ensures GetIdForHashidField(codec, cfg, false, Str(codec.encode(cfg, n))) == Ok(n)
    ensures GetIdForHashidField(codec, cfg, false, HashidVal(h)) == Ok(h.id)
  {
    DecodeOneOfEncoding(codec, cfg, n);
  }

  // ---------------------------------------------------------------------
  // get_db_prep_lookup

  /** The right-hand side: one value (`exact` and friends) or an iterable of
      values (`in`), which the lookup class's iterable flag tells apart. */
  datatype Rhs = One(value: Value) | Many(values: seq<Value>)

  /** What `get_db_prep_lookup` produces: the `EmptyResultSet` exception, or
      the `('%s', ids)` pair. */
  datatype Prepared = EmptyResultSet | Params(ids: seq<nat>)

  /** The ids of the valid values, in input order; invalid values are dropped. */
  function ValidIds(codec: Codec, cfg: Config, allowInt: bool, values: seq<Value>): (r: seq<nat>)
    ensures forall x :: x in r ==>
              exists k :: 0 <= k < |values| && GetIdForHashidField(codec, cfg, allowInt, values[k]) == Ok(x)
    decreases |values|
  {
    if values == [] then []
    else
      var rest := ValidIds(codec, cfg, allowInt, values[..|values| - 1]);
      assert forall k :: 0 <= k < |values| - 1 ==> values[..|values| - 1][k] == values[k];
      match GetIdForHashidField(codec, cfg, allowInt, values[|values| - 1])
      case Ok(id) => rest + [id]
      case Err(_) => rest
  }

  /** The result never has more ids than there were values. */
  lemma {:induction false} ValidIdsLength(codec: Codec, cfg: Config, allowInt: bool, values: seq<Value>)
    ensures |ValidIds(codec, cfg, allowInt, values)| <= |values|
    decreases |values|
  {
    if values != [] {
      ValidIdsLength(codec, cfg, allowInt, values[..|values| - 1]);
    }
  }

  /** Filtering distributes over concatenation, so order is kept. */
  lemma {:induction false} ValidIdsAppend(codec: Codec, cfg: Config, allowInt: bool, xs: seq<Value>, ys: seq<Value>)
    ensures ValidIds(codec, cfg, allowInt, xs + ys) == ValidIds(codec, cfg, allowInt, xs) + ValidIds(codec, cfg, allowInt, ys)
    decreases |ys|
  {
    if ys == [] {
      assert xs + ys == xs;
    } else {
      var ys' := ys[..|ys| - 1];
      assert (xs + ys)[..|xs + ys| - 1] == xs + ys';
      assert (xs + ys)[|xs + ys| - 1] == ys[|ys| - 1];
      ValidIdsAppend(codec, cfg, allowInt, xs, ys');
    }
  }

  /** Nothing survives exactly when every value is invalid. */
  lemma {:induction false} ValidIdsEmpty(codec: Codec, cfg: Config, allowInt: bool, values: seq<Value>)
    ensures ValidIds(codec, cfg, allowInt, values) == [] <==>
            forall k :: 0 <= k < |values| ==> GetIdForHashidField(codec, cfg, allowInt, values[k]).Err?
    decreases |values|
  {
    if values != [] {
      var init := values[..|values| - 1];
      ValidIdsEmpty(codec, cfg, allowInt, init);
      assert forall k :: 0 <= k < |init| ==> init[k] == values[k];
    }
  }

  /** When every value is valid, the k-th id is the k-th value's id. */
  lemma {:induction false} ValidIdsAllValid(codec: Codec, cfg: Config, allowInt: bool, values: seq<Value>)
    requires forall k :: 0 <= k < |values| ==> GetIdForHashidField(codec, cfg, allowInt, values[k]).Ok?
    ensures |ValidIds(codec, cfg, allowInt, values)| == |values|
    ensures forall k :: 0 <= k < |values| ==>
              ValidIds(codec, cfg, allowInt, values)[k] == GetIdForHashidField(codec, cfg, allowInt, values[k]).value
    decreases |values|
  {
    if values != [] {
      var init := values[..|values| - 1];
      var last := values[|values| - 1];
      assert forall k :: 0 <= k < |init| ==> init[k] == values[k];
      ValidIdsAllValid(codec, cfg, allowInt, init);
      var id := GetIdForHashidField(codec, cfg, allowInt, last).value;
      assert ValidIds(codec, cfg, allowInt, values) == ValidIds(codec, cfg, allowInt, init) + [id];
    }
  }

  /** `HashidLookupMixin.get_db_prep_lookup(value, connection)`: in iterable
      mode the ids of the valid values, or `EmptyResultSet` when none is
      valid; in single mode a one-element id list, or `EmptyResultSet` when
      the value is invalid. */
  method GetDbPrepLookup(codec: Codec, cfg: Config, allowInt: bool, rhs: Rhs) returns (r: Prepared)
    ensures rhs.Many? ==>
              r == (if ValidIds(codec, cfg, allowInt, rhs.values) == [] then EmptyResultSet
                    else Params(ValidIds(codec, cfg, allowInt, rhs.values)))
    ensures rhs.One? ==>
              r == (match GetIdForHashidField(codec, cfg, allowInt, rhs.value)
                    case Ok(id) => Params([id])
                    case Err(_) => EmptyResultSet)
  {
    match rhs
    case Many(values) =>
      var ids: seq<nat> := [];
      var i := 0;
      while i < |values|
        invariant 0 <= i <= |values|
        invariant ids == ValidIds(codec, cfg, allowInt, values[..i])
      {
        assert values[..i + 1][..i] == values[..i];
        var outcome := GetIdForHashidField(codec, cfg, allowInt, values[i]);
        if outcome.Ok? {
          ids := ids + [outcome.value];
        }
        i := i + 1;
      }
      assert values[..i] == values;
      if |ids| == 0 {
        r := EmptyResultSet;
      } else {
        r := Params(ids);
      }
    case One(value) =>
      match GetIdForHashidField(codec, cfg, allowInt, value)
      case Ok(id) =>
        r := Params([id]);
      case Err(_) =>
        r := EmptyResultSet;
  }
}
